=== FILE: README.md ===
# FIDashBoard position simulator and tactical advisor, in Dafny

This project models the stateful core of `FIDashBoard.py`, a dashboard that
replays the 2022 World Cup final between Argentina and France. The core has
two parts:

- **Position simulator.** It keeps a map from player name to pitch
  coordinate. On every tick it replays one logged event, cycling through the
  log. The event's actor moves 30% of the way toward the event location, and
  so does the pass recipient, toward the pass end location. Every other
  player takes a smoothed random step and is then clamped to a rectangle
  that depends on role and squad.
- **Tactical advisor.** For a selected player it picks a target point from
  role, squad and the team aggregates. It then picks one of five advice
  sentences through an ordered chain of position tests, where the last
  choice is a random draw. Finally it appends exactly one tip chosen from
  the player's season statistics.

The team aggregates come from the scored shots. Each squad gets an optimal
attacking point, which is the mean location of its shots with xG above 0.3,
or a fixed fallback point. Each squad also gets an xG balance, its own total
minus the opponent's.

Modules, leaves first:

- `Wrappers` (`wrappers.dfy`): `Option` and `Result`.
- `Geometry` (`geometry.dfy`): the 120 x 80 to 105 x 68 transform,
  rectangles, clamping, and the smoothing step.
- `Roster` (`roster.dfy`): squads, formations, roles, statistics and
  movement rectangles, all as constants.
- `TeamStats` (`teamstats.dfy`): the optimal points and xG balances.
- `Simulator` (`simulator.dfy`): one tick (`Advance`) and a sequence of
  ticks (`Run`).
- `Advisor` (`advisor.dfy`): target, advice branch and tip.

Every random number is an explicit input:

- Each player's tick draws are a `Jitter(p, ux, uy)`. Each is a draw in
  [0, 1).
- `uniform(a, b)` is modelled as `a + (b - a) * u`.
- The advisor's draw `u` is consulted only when all three position tests fail.

Three behaviours of the code are easy to misread, and the model follows the
code in each:

- **Clamping covers only the players the event did not move.** The clamp
  sits inside the loop over non-updated players (`FIDashBoard.py:208-225`).
  The actor and the recipient are therefore never clamped.
  `EventMoveEscapesBounds` shows a France forward leaving his half in one
  tick.
- **"Always in bounds" does not hold.** Some starting spots already lie
  outside their rectangles:
  - One defender starts at y = 70 on a 68-wide pitch.
  - Two France forwards start past the halfway line.

  The property that does hold is the one proved in `Advance`: after a
  completed tick, every player the event did not move is inside his
  rectangle.
- **A missing location value does not skip a sub-step.** The tests
  `'location' in current_action` and `'pass_end_location' in current_action`
  look at the event row's column labels, not at its values. A resolved
  player whose location is absent (not-a-number) therefore reaches the
  tuple unpacking, and that raises. The model returns `Raised`, with the
  map as the tick had left it:
  - If the actor's location is missing, the map is unchanged.
  - If the pass end location is missing, the actor has already moved.

  An empty event log raises at the modulo, which gives `Raised` with
  `EmptyEventLog`. An unknown id, or a name that is not on the pitch, skips
  the sub-step without an error.

## Model

| member | source | states |
|---|---|---|
| `Geometry.Transform` | FIDashBoard.py:15-17 | A point lies on the 120 x 80 provider pitch exactly when its image lies on the 105 x 68 pitch; the sign of each axis is preserved |
| `Geometry.TransformRoundTrip` | FIDashBoard.py:15-17 | The transform and the independent reverse rescaling are mutual inverses |
| `Geometry.TransformLinear` | FIDashBoard.py:15-17 | The transform commutes with scaling and addition of points (it is linear) |
| `Geometry.TransformSeparable` | FIDashBoard.py:15-17 | Output x depends only on input x and output y only on input y, each monotonically |
| `Geometry.TransformLandmarks` | FIDashBoard.py:11-17 | (0,0) maps to (0,0), (120,80) to (105,68) and (60,40) to (52.5,34) |
| `Geometry.ClampAxis` | FIDashBoard.py:223-224 | `max(lo, min(v, hi))` lies in a non-empty [lo, hi] and leaves values already inside unchanged |
| `Geometry.ClampNearest` | FIDashBoard.py:223-224 | The clamped value is the point of [lo, hi] nearest the input |
| `Geometry.ClampNonExpansive` | FIDashBoard.py:223-224 | Clamping never moves a value further from any point of the interval |
| `Geometry.ClampIdempotent` | FIDashBoard.py:222-225 | Clamping twice to a well-formed rectangle is clamping once |
| `Geometry.Clamp` | FIDashBoard.py:222-225 | The clamped point lies in any well-formed rectangle and points already inside are fixed |
| `Geometry.Smooth` | FIDashBoard.py:190-191 | The smoothed value lies between current and destination, its distance to the destination is 0.7 of the old one, and it moved 0.3 of the gap |
| `Geometry.SmoothToward` | FIDashBoard.py:188-192 | A smoothing step approaches the destination (between old point and destination, at 0.7 of the old distance, per axis), stays in every rectangle containing both ends, and moves exactly when the destination differs |
| `Geometry.ApproachesUnique` | FIDashBoard.py:190-191 | Betweenness plus the 0.7 distance determine the new point uniquely |
| `Roster.SquadOf` | FIDashBoard.py:167 | Names on the Argentina list belong to Argentina; every France name, and any unlisted name, to France |
| `Roster.StatsOf` | FIDashBoard.py:230 | A listed player reads his stored statistics; a player absent from the table reads as all zero |
| `Roster.MovementBounds` | FIDashBoard.py:164-175 | Every role/squad rectangle is well formed and inside the 105 x 68 pitch; outfield rectangles span the full width; Argentina's defenders keep x in [0, 52.5] and its forwards x in [52.5, 105] |
| `Roster.BoundsMirrored` | FIDashBoard.py:168-175 | The two squads' rectangles for a role are mirror images through the halfway line |
| `Roster.HalvesSplitAtHalfway` | FIDashBoard.py:170-175 | A squad's DEF and FWD rectangles cover the pitch and overlap only on x = 52.5; MID covers the whole pitch |
| `Roster.GoalkeeperBoxes` | FIDashBoard.py:168-169 | Keeper boxes are 18 wide, span y in [22, 46] and touch their own goal line |
| `Roster.Bounds` | FIDashBoard.py:164-167 | A named player's rectangle is the movement rectangle of his role in the role table and of the squad whose list names him; it is well formed and on the pitch |
| `Roster.RosterTablesAgree` | FIDashBoard.py:71-159 | The merged formations and the role table name the same players, and each squad list names exactly that squad's formation |
| `Roster.SquadsDisjoint` | FIDashBoard.py:71-95 | No France player is on the Argentina list |
| `Roster.FranceHasNoStats` | FIDashBoard.py:114-126 | No France player has a statistics entry; all read as zero |
| `Roster.DefenderStartsOffPitch` | FIDashBoard.py:82 | Tagliafico's starting spot is off the pitch and outside his rectangle |
| `Roster.ForwardsStartOutOfBounds` | FIDashBoard.py:97-109 | Mbappé and Giroud start outside their FWD rectangle |
| `TeamStats.HighShots` | FIDashBoard.py:44 | Selects exactly the squad's shots with xG above 0.3 |
| `TeamStats.HighShotsAppend` | FIDashBoard.py:44 | Logging one more shot appends it to the squad's high-value shots exactly when it is one, keeping order and duplicates |
| `TeamStats.MeanBalances` | FIDashBoard.py:46-47 | The deviations of a non-empty sequence sum to zero about its mean and about no other value |
| `TeamStats.OptimalPoint` | FIDashBoard.py:44-56 | With no high-value shot the squad's fallback point (90,34) or (10,34) is used; otherwise the shots' pitch locations deviate from the point by a total of zero on each axis |
| `TeamStats.OptimalPointIsMean` | FIDashBoard.py:44-54 | With high-value shots, the optimal point is the only point their pitch locations balance around, i.e. their mean |
| `TeamStats.OptimalPointWithinShots` | FIDashBoard.py:44-54 | The mean point lies in every rectangle holding all of the squad's high-value shot locations |
| `TeamStats.OptimalPointOnPitch` | FIDashBoard.py:40-56 | Shots on the provider pitch yield an optimal point on the dashboard pitch |
| `TeamStats.TeamXg` | FIDashBoard.py:61-64 | A team's total xG is non-negative when every xG is, and zero when the team took no shot |
| `TeamStats.TeamXgAppend` | FIDashBoard.py:61-64 | Appending a shot adds its xG to its own team's total and to no other |
| `TeamStats.Balance` | FIDashBoard.py:61-66 | A squad that conceded no shot has a non-negative balance; one that took none, a non-positive balance |
| `TeamStats.BalanceAppend` | FIDashBoard.py:61-66 | Logging a shot raises its own squad's balance by its xG, lowers the opponent's by the same, and leaves balances unchanged for a shot by neither |
| `TeamStats.BalanceAntisymmetric` | FIDashBoard.py:59-66 | The two squads' balances are negatives of each other, so at most one exceeds 0.5 |
| `TeamStats.Aggregate` | FIDashBoard.py:44-66 | The aggregates hold each squad's optimal point and balance; the balances cancel; an empty shot table gives both fallback points and zero balances |
| `TeamStats.AggregateAppend` | FIDashBoard.py:59-66 | Shot by shot, Argentina's aggregate balance rises by an Argentina shot's xG and falls by a France shot's, and France's is its negative |
| `Simulator.EventAt` | FIDashBoard.py:179 | A tick has an event exactly when the log is non-empty, and it is an event of the log |
| `Simulator.EventAtPeriodic` | FIDashBoard.py:179 | Tick `step + len(events)` replays the same event as tick `step` |
| `Simulator.EventAtFirstPass` | FIDashBoard.py:179 | During the first pass, tick k replays event k |
| `Simulator.Resolve` | FIDashBoard.py:184-186 | An identity resolves exactly when its id is known and the name is on the pitch |
| `Simulator.RecipientOf` | FIDashBoard.py:195-199 | An event has a recipient exactly when it is a pass whose recipient id resolves to a tracked player, and the recipient is the player that id names |
| `Simulator.MoveToward` | FIDashBoard.py:187-192 | Only the named player moves, and he approaches the transformed destination: between old point and destination, at 0.7 of the old distance, per axis |
| `Simulator.ActorStep` | FIDashBoard.py:184-193 | An unresolved actor leaves the map unchanged; a resolved actor without a location raises with the map unchanged; otherwise the actor alone is moved and approaches the transformed event location |
| `Simulator.RecipientStep` | FIDashBoard.py:195-206 | Non-passes and unresolved recipients leave the map unchanged; a resolved recipient without an end location raises; otherwise the recipient joins the moved players and approaches the transformed pass end location |
| `Simulator.EventStep` | FIDashBoard.py:183-206 | The moved players are exactly the resolved actor and pass recipient; each distinct one approaches his own destination; everyone else stays put. The step stops exactly when a resolved actor lacks a location (map unchanged, `MissingLocation`) or a resolved recipient lacks an end location (`MissingEndLocation`, with the actor's move already written) |
| `Simulator.Uniform` | FIDashBoard.py:213-217 | A draw in [0, 1) gives a value in [lo, hi], and a zero draw gives lo |
| `Simulator.UniformIncreasing` | FIDashBoard.py:213-217 | On a non-empty range a larger draw gives a strictly larger value |
| `Simulator.UniformReaches` | FIDashBoard.py:213-217 | Every value of [lo, hi) is produced by the draw the same fraction of the way through [0, 1) |
| `Simulator.Offset` | FIDashBoard.py:212-217 | An outfield player draws a step in [-2, 2] per axis when the first draw is below 0.2 and a drift in [-0.5, 0.5] otherwise; a keeper always draws in [-0.2, 0.2] and never consults the first draw. The bounds 2, 0.5 and 0.2 follow |
| `Simulator.Drift` | FIDashBoard.py:208-221 | A jostled player closes 30% of the distance to his position plus the random offset, so before clamping he moves at most 0.6 per axis, or 0.06 for a keeper |
| `Simulator.Jostle` | FIDashBoard.py:208-225 | Keys are kept, event-moved players are untouched and unclamped, and every other player ends at his drifted position clamped to his rectangle, so inside it |
| `Simulator.Advance` | FIDashBoard.py:177-225 | A tick keeps the key set; it completes exactly when the log is non-empty and the event step does not stop, and a raise carries the event step's map and fault; a completed tick keeps the event-moved players where the event step put them and puts every other player at his drifted position clamped to his rectangle, so in bounds; an empty log raises |
| `Simulator.EventPlayersApproach` | FIDashBoard.py:183-206 | In a completed tick the moved players are the resolved actor and pass recipient; the actor approaches the event location and the recipient the pass end location, unclamped |
| `Simulator.JostleStepBounded` | FIDashBoard.py:208-225 | A player not moved by the event who started in bounds ends within 0.6 per axis, or 0.06 for a keeper, even after clamping |
| `Simulator.ActorApproachesEvent` | FIDashBoard.py:184-193 | The resolved actor of a located non-pass event is the only event-moved player, and his distance to the event shrinks to 0.7 |
| `Simulator.UnresolvedEventOnlyJostles` | FIDashBoard.py:183-225 | If neither identity resolves, nobody is event-moved and everyone ends the tick in bounds |
| `Simulator.EventMoveEscapesBounds` | FIDashBoard.py:184-193 | An event can carry a player out of his rectangle: Mbappé reaches x = 73.5, past his 52.5 limit |
| `Simulator.Run` | FIDashBoard.py:439-440 | Any sequence of ticks, including ticks that raise, keeps the set of tracked players |
| `Advisor.Target` | FIDashBoard.py:234-242 | FWD targets its own squad's optimal point, DEF the opponent's, MID the midpoint of both, GK (5, 34) or (100, 34) inside his box; targets stay on the pitch when the optimal points do |
| `Advisor.SelectVariant` | FIDashBoard.py:244-338 | Branches 0 to 2 are taken only when their test passes; branches 3 and 4 exactly when all three tests fail, 3 exactly when the draw is below 0.3 |
| `Advisor.FirstTrue` | FIDashBoard.py:244-349 | The first-match index selects a true test and no earlier test is true |
| `Advisor.VariantIsFirstMatch` | FIDashBoard.py:244-338 | The written-out branch chain equals the first-match table of position tests, with the draw deciding only after all tests fail |
| `Advisor.BracketDoesNotChangeBranch` | FIDashBoard.py:244-338 | The leading and trailing brackets pick the same branch and differ only in wording |
| `Advisor.VariantPriority` | FIDashBoard.py:244-338 | Branch k is chosen exactly when test k passes and no earlier one does; the alternate is chosen exactly when all fail and the draw is below 0.3 |
| `Advisor.SelectTip` | FIDashBoard.py:340-349 | The scoring tip is chosen exactly when goals exceed 2; the default tip exactly when no statistic passes its threshold |
| `Advisor.TipIsFirstMatch` | FIDashBoard.py:340-349 | The tip is the first passing test of goals > 2, assists > 1, passes > 100, rating > 7.5, and the default exactly when none passes |
| `Advisor.Advise` | FIDashBoard.py:227-351 | An unknown name fails at the role lookup; the result carries the player's role, the balance bracket, the role target, the first-match variant of the position tests and the first-match tip of his statistics |
| `Advisor.TargetIgnoresPositionAndDraw` | FIDashBoard.py:229-242 | The target depends only on role, squad and aggregates, not on positions or the draw |
| `Advisor.AdviceDeterministicBeforeDraw` | FIDashBoard.py:244-338 | When a position test passes, the advice is the same for every draw |
| `Advisor.LeadingForwardCharges` | FIDashBoard.py:244-247 | A leading forward more than 10 short of his target gets the charge sentence, with his own squad's optimal point as target |
| `Advisor.FrancePlayersGetDefaultTip` | FIDashBoard.py:340-349 | Every France player gets the default tip |
| `Advisor.TopScorerGetsScoringTip` | FIDashBoard.py:115 | Messi, with five goals, always gets the scoring-form tip |

## Left out

- Fetching the event log and line-ups from the provider (`FIDashBoard.py:22`, `129-133`) is network I/O. The event log and the id-to-name map are parameters.
- Shot distance and angle, and the logistic-regression xG model (`FIDashBoard.py:27-37`), are floating-point numerics in a foreign library. Each `Shot` carries its xG value as given.
- Drawing the pitch and its markers (`FIDashBoard.py:353-404`) is rendering, and the Dash layout, timer and callbacks (`FIDashBoard.py:409-479`) are UI glue. `Simulator.Run` stands for the repeated tick calls.
- The advice and tip texts and their `:.1f`/`:.2f` formatting are not modelled. A sentence is identified by its variant index and a tip by its tip index.
- Python's `random` module is replaced by explicit draws. The simulator's draws and the advisor's draw are independent inputs.
- Floating-point rounding is not modelled. Coordinates are exact `real`s, so `Geometry.Smooth` is exactly a 0.7 contraction.
- Squads are an enumeration. The source takes the squad as a string, and any other string would fail at the team-statistics lookup. Its callers only pass the two squad names.
- Event locations that are not two-element pairs, and not-a-number xG values, are not modelled. A not-a-number location is modelled as `None`.
- The location map is a value that each tick returns, not a global that is mutated in place. A tick that raises returns the writes it had made so far.
- Simulator.EventMoveEscapesBounds: states only the escaping x coordinate of the moved player, not his y.
- Event log columns: the log is assumed to carry the `location`, `pass_recipient_id` and `pass_end_location` columns. A log without one of them makes the dashboard skip that sub-step, which the model does not represent; a not-a-number value in a present column is what the model's `None` stands for.
- Simulator.Advance: when an event's actor is also its pass recipient, his end position after two smoothing steps is not stated; a pass from a player to himself is not expected in a match log.

=== FILE: advisor.dfy ===
/** The rule-based tactical advisor. For a selected player it picks a target
    point from the player's role and squad, one of five advice sentences by
    an ordered chain of position tests (the last decided by a random draw,
    here an explicit input), and exactly one tip from the player's season
    statistics. Sentences are identified by index rather than text. */
module Advisor {
  import opened Wrappers
  import opened Geometry
  import opened Roster
  import opened TeamStats

  /** Position of the chosen sentence in its chain: 0, 1 and 2 are the three
      position tests in order, 3 the alternate the draw picks with
      probability 0.3, 4 the default. */
  type Variant = v: nat | v < 5

  /** The appended tip: 0 scoring form, 1 playmaking, 2 tempo,
      3 leadership, 4 stay focused. */
  type Tip = t: nat | t < 5

  const ScoringTip: Tip := 0
  const DefaultTip: Tip := 4

  datatype Advice = Advice(role: Role, leading: bool, variant: Variant, tip: Tip, target: Point)

  /** Lookups that fail: the name has no role, or no current location. */
  datatype AdviceError = UnknownPlayer | UnplacedPlayer

  /** A squad whose xG balance exceeds this gets the "leading" wording. */
  const LeadingBalance: real := 0.5

  const AlternateProbability: real := 0.3

  const CentreY: real := PitchWidth / 2.0

  /** Where the role should head: forwards to their own squad's optimal
      point, defenders to the opponent's, midfielders halfway between, and
      keepers to a fixed spot in front of their own goal. */
  function Target(role: Role, squad: Squad, team: TeamData): (t: Point)
    ensures role == FWD ==> t == OptimalOf(team, squad)
    ensures role == DEF ==> t == OptimalOf(team, Opponent(squad))
    ensures role == MID ==> (&& 2.0 * t.x == OptimalOf(team, Argentina).x + OptimalOf(team, France).x
                             && 2.0 * t.y == OptimalOf(team, Argentina).y + OptimalOf(team, France).y)
    ensures role == GK ==> t == Point(if squad == Argentina then 5.0 else PitchLength - 5.0, CentreY)
    ensures role == MID ==> (Abs(t.x - team.argOptimal.x) == Abs(t.x - team.fraOptimal.x)
                             && Abs(t.y - team.argOptimal.y) == Abs(t.y - team.fraOptimal.y))
    ensures role == GK ==> Inside(t, MovementBounds(GK, squad)) && t.y == CentreY
    ensures OnPitch(team.argOptimal) && OnPitch(team.fraOptimal) ==> OnPitch(t)
  {
    match role
    case FWD => OptimalOf(team, squad)
    case DEF => OptimalOf(team, Opponent(squad))
    case MID => Point((team.argOptimal.x + team.fraOptimal.x) / 2.0,
                      (team.argOptimal.y + team.fraOptimal.y) / 2.0)
    case GK => if squad == Argentina then Point(5.0, 34.0) else Point(100.0, 34.0)
  }

  /** The dashboard's chain of tests, per role and balance bracket; `u` is
      the draw in [0, 1) consulted only when every position test fails. */
  function SelectVariant(role: Role, squad: Squad, leading: bool, pos: Point, target: Point, u: real): (v: Variant)
    ensures v < 3 ==> PositionTests(role, squad, pos, target)[v]
    ensures v >= 3 <==> forall j :: 0 <= j < 3 ==> !PositionTests(role, squad, pos, target)[j]
    ensures v == 3 <==> v >= 3 && u < AlternateProbability
  {
    match role
    case FWD =>
      if leading then
        if pos.x < target.x - 10.0 then 0
        else if Abs(pos.y - 34.0) > 15.0 then 1
        else if pos.x > 85.0 then 2
        else if u < AlternateProbability then 3
        else 4
      else
        if pos.x < target.x - 10.0 then 0
        else if Abs(pos.y - 34.0) > 15.0 then 1
        else if pos.x > 85.0 then 2
        else if u < AlternateProbability then 3
        else 4
    case DEF =>
      if leading then
        if pos.x > target.x + 10.0 then 0
        else if Abs(pos.y - target.y) > 10.0 then 1
        else if pos.x < 20.0 then 2
        else if u < AlternateProbability then 3
        else 4
      else
        if pos.x > target.x + 10.0 then 0
        else if Abs(pos.y - target.y) > 10.0 then 1
        else if pos.x < 20.0 then 2
        else if u < AlternateProbability then 3
        else 4
    case MID =>
      if leading then
        if pos.x < 40.0 then 0
        else if Abs(pos.y - 34.0) > 20.0 then 1
        else if pos.x > 70.0 then 2
        else if u < AlternateProbability then 3
        else 4
      else
        if pos.x < 40.0 then 0
        else if Abs(pos.y - 34.0) > 20.0 then 1
        else if pos.x > 70.0 then 2
        else if u < AlternateProbability then 3
        else 4
    case GK =>
      if leading then
        if pos.x > 10.0 && squad == Argentina then 0
        else if pos.x < 95.0 && squad == France then 1
        else if Abs(pos.y - 34.0) > 5.0 then 2
        else if u < AlternateProbability then 3
        else 4
      else
        if pos.x > 10.0 && squad == Argentina then 0
        else if pos.x < 95.0 && squad == France then 1
        else if Abs(pos.y - 34.0) > 5.0 then 2
        else if u < AlternateProbability then 3
        else 4
  }

  /** The three position tests of a role as a table, in priority order. */
  function PositionTests(role: Role, squad: Squad, pos: Point, target: Point): (c: seq<bool>)
    ensures |c| == 3
  {
    match role
    case FWD => [pos.x < target.x - 10.0, Abs(pos.y - CentreY) > 15.0, pos.x > 85.0]
    case DEF => [pos.x > target.x + 10.0, Abs(pos.y - target.y) > 10.0, pos.x < 20.0]
    case MID => [pos.x < 40.0, Abs(pos.y - CentreY) > 20.0, pos.x > 70.0]
    case GK => [pos.x > 10.0 && squad == Argentina, pos.x < 95.0 && squad == France,
                Abs(pos.y - CentreY) > 5.0]
  }

  /** Index of the first true entry, or the length when none is true. */
  function FirstTrue(c: seq<bool>): (k: nat)
    ensures k <= |c|
    ensures k < |c| ==> c[k]
    ensures forall j :: 0 <= j < k ==> !c[j]
  {
    if |c| == 0 then 0
    else if c[0] then 0
    else 1 + FirstTrue(c[1..])
  }

  /** The contract of FirstTrue determines its result. */
  lemma FirstTrueUnique(c: seq<bool>, k: nat)
    requires k <= |c|
    requires k < |c| ==> c[k]
    requires forall j :: 0 <= j < k ==> !c[j]
    ensures FirstTrue(c) == k
  {
  }

  /** Table-driven selection: the first passing test wins; the draw decides
      between alternate and default only when all fail. */
  function TableVariant(tests: seq<bool>, u: real): Variant
    requires |tests| == 3
  {
    var k := FirstTrue(tests);
    if k < 3 then k else if u < AlternateProbability then 3 else 4
  }

  /** The branch chain is the first-match table, in both balance brackets. */
  lemma VariantIsFirstMatch(role: Role, squad: Squad, leading: bool, pos: Point, target: Point, u: real)
    ensures SelectVariant(role, squad, leading, pos, target, u)
         == TableVariant(PositionTests(role, squad, pos, target), u)
  {
    var c := PositionTests(role, squad, pos, target);
    var v := SelectVariant(role, squad, leading, pos, target, u);
    FirstTrueUnique(c, if v < 3 then v else 3);
  }

  /** The balance bracket changes only the wording: both brackets pick the
      same branch. */
  lemma BracketDoesNotChangeBranch(role: Role, squad: Squad, pos: Point, target: Point, u: real)
    ensures SelectVariant(role, squad, true, pos, target, u)
         == SelectVariant(role, squad, false, pos, target, u)
  {
    VariantIsFirstMatch(role, squad, true, pos, target, u);
    VariantIsFirstMatch(role, squad, false, pos, target, u);
  }

  /** The chosen branch is test k exactly when test k passes and no earlier
      one does; the draw only matters when all three fail. */
  lemma VariantPriority(role: Role, squad: Squad, leading: bool, pos: Point, target: Point, u: real, k: nat)
    requires k < 3
    ensures var c := PositionTests(role, squad, pos, target);
            SelectVariant(role, squad, leading, pos, target, u) == k
            <==> c[k] && forall j :: 0 <= j < k ==> !c[j]
    ensures var c := PositionTests(role, squad, pos, target);
            SelectVariant(role, squad, leading, pos, target, u) == 3
            <==> !c[0] && !c[1] && !c[2] && u < AlternateProbability
  {
    VariantIsFirstMatch(role, squad, leading, pos, target, u);
  }

  function TipTests(s: Stats): seq<bool> {
    [s.scores > 2, s.assists > 1, s.passesCompleted > 100, s.rating > 7.5]
  }

  /** The one tip appended to the advice, by fixed priority. */
  function SelectTip(s: Stats): (t: Tip)
    ensures t == ScoringTip <==> s.scores > 2
    ensures t == DefaultTip <==> s.scores <= 2 && s.assists <= 1 && s.passesCompleted <= 100 && s.rating <= 7.5
  {
    if s.scores > 2 then 0
    else if s.assists > 1 then 1
    else if s.passesCompleted > 100 then 2
    else if s.rating > 7.5 then 3
    else 4
  }

  /** The tip is the first statistic test that passes, or the default. */
  lemma TipIsFirstMatch(s: Stats)
    ensures SelectTip(s) == FirstTrue(TipTests(s))
    ensures SelectTip(s) == DefaultTip <==> forall j :: 0 <= j < 4 ==> !TipTests(s)[j]
  {
    FirstTrueUnique(TipTests(s), SelectTip(s));
  }

  /** Advice for a player of the given squad at the current locations. The
      role lookup comes first and fails for an unknown name; an unplaced
      player fails at the location lookup. */
  function Advise(name: string, squad: Squad, locs: map<string, Point>, team: TeamData, u: real)
    : (r: Result<Advice, AdviceError>)
    ensures name !in Roles <==> r == Failure(UnknownPlayer)
    ensures r.Failure? <==> name !in Roles || name !in locs
    ensures r.Success? ==> r.value.role == Roles[name]
    ensures r.Success? ==> (r.value.leading <==> BalanceOf(team, squad) > LeadingBalance)
    ensures r.Success? && StatsOf(name).scores > 2 ==> r.value.tip == ScoringTip
    ensures r.Success? ==> r.value.target == Target(Roles[name], squad, team)
    ensures r.Success? ==>
              r.value.variant == TableVariant(PositionTests(Roles[name], squad, locs[name], r.value.target), u)
    ensures r.Success? ==> r.value.tip == FirstTrue(TipTests(StatsOf(name)))
  {
    if name !in Roles then Failure(UnknownPlayer)
    else if name !in locs then Failure(UnplacedPlayer)
    else
      var role := Roles[name];
      var target := Target(role, squad, team);
      var leading := BalanceOf(team, squad) > LeadingBalance;
      VariantIsFirstMatch(role, squad, leading, locs[name], target, u);
      TipIsFirstMatch(StatsOf(name));
      Success(Advice(role, leading, SelectVariant(role, squad, leading, locs[name], target, u),
                     SelectTip(StatsOf(name)), target))
  }

  /** The target depends on role, squad and team aggregates only: not on
      where anyone stands, nor on the draw. */
  lemma TargetIgnoresPositionAndDraw(name: string, squad: Squad, locs1: map<string, Point>,
                                     locs2: map<string, Point>, team: TeamData, u1: real, u2: real)
    requires name in Roles && name in locs1 && name in locs2
    ensures Advise(name, squad, locs1, team, u1).value.target
         == Advise(name, squad, locs2, team, u2).value.target
         == Target(Roles[name], squad, team)
  {
  }

  /** Whenever a position test passes, the advice is the same for every
      draw; different draws can only differ when all three fail. */
  lemma AdviceDeterministicBeforeDraw(name: string, squad: Squad, locs: map<string, Point>,
                                      team: TeamData, u1: real, u2: real)
    requires name in Roles && name in locs
    requires FirstTrue(PositionTests(Roles[name], squad, locs[name], Target(Roles[name], squad, team))) < 3
    ensures Advise(name, squad, locs, team, u1) == Advise(name, squad, locs, team, u2)
  {
    var role := Roles[name];
    var target := Target(role, squad, team);
    var leading := BalanceOf(team, squad) > LeadingBalance;
    VariantIsFirstMatch(role, squad, leading, locs[name], target, u1);
    VariantIsFirstMatch(role, squad, leading, locs[name], target, u2);
  }

  /** A leading forward more than 10 units short of his target is told to
      charge to it, whatever the draw. */
  lemma LeadingForwardCharges(name: string, squad: Squad, locs: map<string, Point>, team: TeamData, u: real)
    requires name in Roles && Roles[name] == FWD && name in locs
    requires BalanceOf(team, squad) > LeadingBalance
    requires locs[name].x < OptimalOf(team, squad).x - 10.0
    ensures var r := Advise(name, squad, locs, team, u);
            r.Success? && r.value.leading && r.value.variant == 0
            && r.value.target == OptimalOf(team, squad)
  {
  }

  /** No France player has statistics, so every one of them gets the
      default tip. */
  lemma FrancePlayersGetDefaultTip(name: string, locs: map<string, Point>, team: TeamData, u: real)
    requires name in FranceSquad && name in Roles && name in locs
    ensures Advise(name, France, locs, team, u).value.tip == DefaultTip
  {
    FranceHasNoStats();
  }

  /** Messi has scored five goals, so his advice always ends with the
      scoring-form tip. */
  lemma TopScorerGetsScoringTip(locs: map<string, Point>, team: TeamData, u: real)
    requires "Lionel Messi" in locs
    ensures Advise("Lionel Messi", Argentina, locs, team, u).value.tip == ScoringTip
  {
    assert Metrics["Lionel Messi"].scores == 5;
  }
}

=== FILE: geometry.dfy ===
/** Pitch geometry of the dashboard: the two coordinate systems, the transform
    between them, clamp rectangles and the exponential smoothing step. */
module Geometry {

  /** The dashboard pitch is 105 x 68 units, origin at a corner. */
  const PitchLength: real := 105.0
  const PitchWidth: real := 68.0

  /** The event provider reports locations on a 120 x 80 pitch. */
  const ProviderLength: real := 120.0
  const ProviderWidth: real := 80.0

  /** Fraction of the remaining distance a player closes in one tick. */
  const TransitionRate: real := 0.3

  datatype Point = Point(x: real, y: real)

  function Abs(v: real): real { if v < 0.0 then -v else v }

  function Min(a: real, b: real): real { if a <= b then a else b }

  function Max(a: real, b: real): real { if a >= b then a else b }

  function Add(p: Point, q: Point): Point { Point(p.x + q.x, p.y + q.y) }

  function Scale(k: real, p: Point): Point { Point(k * p.x, k * p.y) }

  predicate OnProviderPitch(p: Point) {
    0.0 <= p.x <= ProviderLength && 0.0 <= p.y <= ProviderWidth
  }

  predicate OnPitch(p: Point) {
    0.0 <= p.x <= PitchLength && 0.0 <= p.y <= PitchWidth
  }

  /** Rescales a provider location to dashboard coordinates, axis by axis. */
  function Transform(p: Point): (q: Point)
    ensures OnProviderPitch(p) <==> OnPitch(q)
    ensures p.x <= 0.0 <==> q.x <= 0.0
    ensures p.y <= 0.0 <==> q.y <= 0.0
  {
    Point(p.x / ProviderLength * PitchLength, p.y / ProviderWidth * PitchWidth)
  }

  /** Dashboard coordinates back to provider coordinates; the reference
      inverse the transform is checked against. */
  function Untransform(q: Point): Point {
    Point(q.x / PitchLength * ProviderLength, q.y / PitchWidth * ProviderWidth)
  }

  lemma TransformRoundTrip(p: Point, q: Point)
    ensures Untransform(Transform(p)) == p
    ensures Transform(Untransform(q)) == q
  {
  }

  /** The transform is linear: it commutes with scaling and addition. */
  lemma TransformLinear(a: real, p: Point, b: real, q: Point)
    ensures Transform(Add(Scale(a, p), Scale(b, q)))
         == Add(Scale(a, Transform(p)), Scale(b, Transform(q)))
  {
  }

  /** Each output axis depends on the same input axis only, monotonically. */
  lemma TransformSeparable(p: Point, q: Point)
    ensures p.x == q.x ==> Transform(p).x == Transform(q).x
    ensures p.y == q.y ==> Transform(p).y == Transform(q).y
    ensures p.x <= q.x <==> Transform(p).x <= Transform(q).x
    ensures p.y <= q.y <==> Transform(p).y <= Transform(q).y
  {
  }

  lemma TransformLandmarks()
    ensures Transform(Point(0.0, 0.0)) == Point(0.0, 0.0)
    ensures Transform(Point(ProviderLength, ProviderWidth)) == Point(PitchLength, PitchWidth)
    ensures Transform(Point(60.0, 40.0)) == Point(52.5, 34.0)
  {
  }

  /** A clamp rectangle [xMin, xMax] x [yMin, yMax]. */
  datatype Rect = Rect(xMin: real, xMax: real, yMin: real, yMax: real)

  predicate WellFormed(r: Rect) { r.xMin <= r.xMax && r.yMin <= r.yMax }

  predicate Inside(p: Point, r: Rect) {
    r.xMin <= p.x <= r.xMax && r.yMin <= p.y <= r.yMax
  }

  predicate RectOnPitch(r: Rect) {
    0.0 <= r.xMin && r.xMax <= PitchLength && 0.0 <= r.yMin && r.yMax <= PitchWidth
  }

  /** `max(lo, min(v, hi))`: for a non-empty interval, the point of
      [lo, hi] nearest to v. */
  function ClampAxis(v: real, lo: real, hi: real): (r: real)
    ensures lo <= hi ==> lo <= r <= hi
    ensures lo <= v <= hi ==> r == v
  {
    Max(lo, Min(v, hi))
  }

  function Clamp(p: Point, r: Rect): (q: Point)
    ensures WellFormed(r) ==> Inside(q, r)
    ensures Inside(p, r) ==> q == p
  {
    Point(ClampAxis(p.x, r.xMin, r.xMax), ClampAxis(p.y, r.yMin, r.yMax))
  }

  /** Clamping to an interval never moves a value further from a point of
      that interval, so clamping cannot undo the bound on a step. */
  lemma ClampNonExpansive(v: real, lo: real, hi: real, w: real)
    requires lo <= w <= hi
    ensures Abs(ClampAxis(v, lo, hi) - w) <= Abs(v - w)
  {
  }

  /** The clamped value is the point of [lo, hi] nearest to v. */
  lemma ClampNearest(v: real, lo: real, hi: real, w: real)
    requires lo <= w <= hi
    ensures Abs(ClampAxis(v, lo, hi) - v) <= Abs(w - v)
  {
  }

  lemma ClampIdempotent(p: Point, r: Rect)
    requires WellFormed(r)
    ensures Clamp(Clamp(p, r), r) == Clamp(p, r)
  {
  }

  /** One smoothing step `curr + rate * (dest - curr)` on one axis. */
  function Smooth(curr: real, dest: real): (r: real)
    ensures Min(curr, dest) <= r <= Max(curr, dest)
    ensures Abs(r - dest) == (1.0 - TransitionRate) * Abs(curr - dest)
    ensures Abs(r - curr) == TransitionRate * Abs(dest - curr)
  {
    curr + TransitionRate * (dest - curr)
  }

  /** `q` is one smoothing step from `p` toward `dest`: on each axis it lies
      between the two, and its distance to `dest` is 0.7 of the old one. */
  predicate Approaches(p: Point, q: Point, dest: Point) {
    && Min(p.x, dest.x) <= q.x <= Max(p.x, dest.x)
    && Min(p.y, dest.y) <= q.y <= Max(p.y, dest.y)
    && Abs(q.x - dest.x) == (1.0 - TransitionRate) * Abs(p.x - dest.x)
    && Abs(q.y - dest.y) == (1.0 - TransitionRate) * Abs(p.y - dest.y)
  }

  /** Approaching pins the new point down: there is only one. */
  lemma ApproachesUnique(p: Point, q1: Point, q2: Point, dest: Point)
    requires Approaches(p, q1, dest) && Approaches(p, q2, dest)
    ensures q1 == q2
  {
  }

  function SmoothToward(p: Point, dest: Point): (q: Point)
    ensures Approaches(p, q, dest)
    ensures forall r: Rect :: Inside(p, r) && Inside(dest, r) ==> Inside(q, r)
    ensures p == dest <==> q == p
  {
    Point(Smooth(p.x, dest.x), Smooth(p.y, dest.y))
  }
}

=== FILE: roster.dfy ===
/** The fixed match roster: the two squads, their starting formations, player
    roles, season statistics, and the per-role movement rectangles. */
module Roster {
  import opened Geometry

  datatype Role = GK | DEF | MID | FWD

  datatype Squad = Argentina | France

  function Opponent(s: Squad): Squad {
    match s
    case Argentina => France
    case France => Argentina
  }

  /** Season statistics; a player with no stored entry reads as all zero. */
  datatype Stats = Stats(games: int, scores: int, assists: int, passesCompleted: int, rating: real)

  const NoStats: Stats := Stats(0, 0, 0, 0, 0.0)

  const ArgentinaSquad: seq<string> := [
    "Emiliano Martinez", "Nahuel Molina", "Cristian Romero", "Nicolas Otamendi",
    "Nicolas Tagliafico", "Rodrigo De Paul", "Leandro Paredes", "Alexis Mac Allister",
    "Angel Di Maria", "Lionel Messi", "Julian Alvarez"
  ]

  const FranceSquad: seq<string> := [
    "Hugo Lloris", "Jules Koundé", "Raphaël Varane", "Dayot Upamecano", "Theo Hernández",
    "Aurélien Tchouaméni", "Adrien Rabiot", "Ousmane Dembélé", "Antoine Griezmann",
    "Kylian Mbappé", "Olivier Giroud"
  ]

  const ArgentinaFormation: map<string, Point> := map[
    "Emiliano Martinez" := Point(5.0, 34.0),
    "Nahuel Molina" := Point(20.0, 10.0),
    "Cristian Romero" := Point(20.0, 30.0),
    "Nicolas Otamendi" := Point(20.0, 50.0),
    "Nicolas Tagliafico" := Point(20.0, 70.0),
    "Rodrigo De Paul" := Point(40.0, 20.0),
    "Leandro Paredes" := Point(45.0, 34.0),
    "Alexis Mac Allister" := Point(40.0, 50.0),
    "Angel Di Maria" := Point(60.0, 20.0),
    "Lionel Messi" := Point(65.0, 34.0),
    "Julian Alvarez" := Point(70.0, 50.0)
  ]

  const FranceFormation: map<string, Point> := map[
    "Hugo Lloris" := Point(100.0, 34.0),
    "Jules Koundé" := Point(85.0, 60.0),
    "Raphaël Varane" := Point(85.0, 40.0),
    "Dayot Upamecano" := Point(85.0, 28.0),
    "Theo Hernández" := Point(85.0, 8.0),
    "Aurélien Tchouaméni" := Point(75.0, 34.0),
    "Adrien Rabiot" := Point(70.0, 34.0),
    "Ousmane Dembélé" := Point(60.0, 60.0),
    "Antoine Griezmann" := Point(60.0, 34.0),
    "Kylian Mbappé" := Point(60.0, 8.0),
    "Olivier Giroud" := Point(55.0, 34.0)
  ]

  /** The location map the dashboard starts from: both formations merged. */
  const InitialLocations: map<string, Point> := ArgentinaFormation + FranceFormation

  const Metrics: map<string, Stats> := map[
    "Lionel Messi" := Stats(6, 5, 3, 320, 8.4),
    "Julian Alvarez" := Stats(6, 4, 0, 180, 7.9),
    "Angel Di Maria" := Stats(4, 1, 1, 120, 7.5),
    "Rodrigo De Paul" := Stats(6, 0, 1, 290, 7.6),
    "Leandro Paredes" := Stats(5, 0, 0, 200, 7.3),
    "Alexis Mac Allister" := Stats(6, 1, 1, 250, 7.7),
    "Emiliano Martinez" := Stats(6, 0, 0, 50, 7.2),
    "Cristian Romero" := Stats(6, 0, 0, 120, 7.5),
    "Nicolas Otamendi" := Stats(6, 0, 0, 180, 7.4),
    "Nicolas Tagliafico" := Stats(5, 0, 0, 150, 7.3),
    "Nahuel Molina" := Stats(6, 1, 1, 170, 7.4)
  ]

  const Roles: map<string, Role> := map[
    "Emiliano Martinez" := GK,
    "Nahuel Molina" := DEF,
    "Cristian Romero" := DEF,
    "Nicolas Otamendi" := DEF,
    "Nicolas Tagliafico" := DEF,
    "Rodrigo De Paul" := MID,
    "Leandro Paredes" := MID,
    "Alexis Mac Allister" := MID,
    "Angel Di Maria" := FWD,
    "Lionel Messi" := FWD,
    "Julian Alvarez" := FWD,
    "Hugo Lloris" := GK,
    "Jules Koundé" := DEF,
    "Raphaël Varane" := DEF,
    "Dayot Upamecano" := DEF,
    "Theo Hernández" := DEF,
    "Aurélien Tchouaméni" := MID,
    "Adrien Rabiot" := MID,
    "Ousmane Dembélé" := MID,
    "Antoine Griezmann" := MID,
    "Kylian Mbappé" := FWD,
    "Olivier Giroud" := FWD
  ]

  /** Squad membership as the bounds lookup decides it: anyone not listed
      for Argentina counts as France. */
  function SquadOf(name: string): (s: Squad)
    ensures name in FranceSquad ==> s == France
    ensures name in ArgentinaSquad ==> s == Argentina
    ensures name !in ArgentinaSquad ==> s == France
  {
    SquadsDisjoint();
    if name in ArgentinaSquad then Argentina else France
  }

  /** Statistics lookup with the all-zero default for unlisted players. */
  function StatsOf(name: string): (s: Stats)
    ensures name in Metrics ==> s == Metrics[name]
    ensures name !in Metrics ==> s == NoStats
  {
    if name in Metrics then Metrics[name] else NoStats
  }

  /** Mirror image of a rectangle through the halfway line x = 52.5. */
  function Mirror(r: Rect): Rect {
    Rect(PitchLength - r.xMax, PitchLength - r.xMin, r.yMin, r.yMax)
  }

  const HalfwayLine: real := PitchLength / 2.0

  /** The rectangle a player of the given role and squad is clamped to. */
  function MovementBounds(role: Role, squad: Squad): (r: Rect)
    ensures WellFormed(r) && RectOnPitch(r)
    ensures role == DEF && squad == Argentina ==> r.xMin == 0.0 && r.xMax == HalfwayLine
    ensures role == FWD && squad == Argentina ==> r.xMin == HalfwayLine && r.xMax == PitchLength
    ensures role != GK ==> r.yMin == 0.0 && r.yMax == PitchWidth
  {
    match role
    case GK => if squad == Argentina then Rect(0.0, 18.0, 22.0, 46.0) else Rect(87.0, 105.0, 22.0, 46.0)
    case DEF => if squad == Argentina then Rect(0.0, 52.5, 0.0, 68.0) else Rect(52.5, 105.0, 0.0, 68.0)
    case MID => Rect(0.0, 105.0, 0.0, 68.0)
    case FWD => if squad == Argentina then Rect(52.5, 105.0, 0.0, 68.0) else Rect(0.0, 52.5, 0.0, 68.0)
  }

  /** The two squads' rectangles for a role are mirror images. */
  lemma BoundsMirrored(role: Role, squad: Squad)
    ensures MovementBounds(role, Opponent(squad)) == Mirror(MovementBounds(role, squad))
  {
  }

  /** A squad's defenders and forwards split the pitch at the halfway line:
      together they cover it, and they share only that line. Midfielders
      roam the whole pitch. */
  lemma HalvesSplitAtHalfway(squad: Squad, p: Point)
    requires OnPitch(p)
    ensures Inside(p, MovementBounds(DEF, squad)) || Inside(p, MovementBounds(FWD, squad))
    ensures Inside(p, MovementBounds(DEF, squad)) && Inside(p, MovementBounds(FWD, squad))
            ==> p.x == HalfwayLine
    ensures Inside(p, MovementBounds(MID, squad))
  {
  }

  /** Goalkeepers are confined to an 18 x 24 box centred on their own goal. */
  lemma GoalkeeperBoxes(squad: Squad)
    ensures var r := MovementBounds(GK, squad);
            r.xMax - r.xMin == 18.0 && r.yMin == 22.0 && r.yMax == 46.0
            && (squad == Argentina ==> r.xMin == 0.0)
            && (squad == France ==> r.xMax == PitchLength)
  {
  }

  /** The bounds of a named player; the roles table must know the name. */
  function Bounds(name: string): (r: Rect)
    requires name in Roles
    ensures WellFormed(r) && RectOnPitch(r)
    ensures r == MovementBounds(Roles[name], SquadOf(name))
  {
    MovementBounds(Roles[name], SquadOf(name))
  }

  /** The roster tables agree: every player with a starting place has a
      role, and each squad list names exactly that squad's formation. */
  lemma RosterTablesAgree()
    ensures InitialLocations.Keys == Roles.Keys
    ensures forall n :: n in ArgentinaSquad <==> n in ArgentinaFormation
    ensures forall n :: n in FranceSquad <==> n in FranceFormation
  {
  }

  /** No player is listed for both squads. */
  lemma SquadsDisjoint()
    ensures forall n :: n in FranceSquad ==> n !in ArgentinaSquad
  {
  }

  /** No France player has stored statistics: all read as zero. */
  lemma FranceHasNoStats()
    ensures forall n :: n in FranceSquad ==> n !in Metrics
    ensures forall n :: n in FranceSquad ==> StatsOf(n) == NoStats
  {
  }

  /** A defender starts beyond the touchline, outside the pitch and so
      outside his rectangle. */
  lemma DefenderStartsOffPitch()
    ensures !OnPitch(InitialLocations["Nicolas Tagliafico"])
    ensures !Inside(InitialLocations["Nicolas Tagliafico"], Bounds("Nicolas Tagliafico"))
  {
  }

  /** Two France forwards start past the halfway line, outside the half
      their rectangle allows. */
  lemma ForwardsStartOutOfBounds()
    ensures !Inside(InitialLocations["Kylian Mbappé"], Bounds("Kylian Mbappé"))
    ensures !Inside(InitialLocations["Olivier Giroud"], Bounds("Olivier Giroud"))
  {
  }
}

=== FILE: simulator.dfy ===
/** The tick-driven position simulator. Each tick replays one event of the
    match log: the event's actor (and, for a pass, its recipient) moves part
    of the way toward the event's location, and every other player takes a
    smoothed random step and is clamped to its movement rectangle. The
    random draws are explicit inputs. */
module Simulator {
  import opened Wrappers
  import opened Geometry
  import opened Roster

  /** Player name to current dashboard coordinate. */
  type Locations = map<string, Point>

  /** One logged match event. Identities and locations that are
      not-a-number in the log are `None`; locations are in provider units. */
  datatype Event = Event(
    kind: string,
    actor: Option<int>,
    recipient: Option<int>,
    location: Option<Point>,
    endLocation: Option<Point>)

  predicate IsPass(e: Event) { e.kind == "Pass" }

  /** Chance that a non-goalkeeper takes a large step instead of a drift. */
  const DynamicMoveProbability: real := 0.2

  /** The random numbers one player consumes in a tick, each a draw in
      [0, 1): `p` decides between a large step and a drift (goalkeepers
      never consult it), `ux` and `uy` pick the offset on each axis. */
  datatype Jitter = Jitter(p: real, ux: real, uy: real)

  predicate ValidJitter(j: Jitter) {
    0.0 <= j.p < 1.0 && 0.0 <= j.ux < 1.0 && 0.0 <= j.uy < 1.0
  }

  /** Why a tick stopped early: an empty log has no event to replay, and a
      resolved player whose location value is absent cannot be unpacked. */
  datatype Fault = EmptyEventLog | MissingLocation | MissingEndLocation

  /** A tick either completes, reporting the players the event moved, or
      stops at a fault, leaving whatever it had already written. */
  datatype Outcome =
    | Completed(locations: Locations, moved: set<string>)
    | Raised(locations: Locations, fault: Fault)

  /** The event replayed at a tick: the log is cycled. */
  function EventAt(events: seq<Event>, step: nat): (r: Option<Event>)
    ensures r.None? <==> |events| == 0
    ensures r.Some? ==> r.value in events
  {
    if |events| == 0 then None else Some(events[step % |events|])
  }

  /** A second pass over the log replays the first one event for event. */
  lemma EventAtPeriodic(events: seq<Event>, step: nat)
    ensures EventAt(events, step + |events|) == EventAt(events, step)
  {
    if |events| > 0 {
      ModAddPeriod(step, |events|);
    }
  }

  lemma MulAtLeast(n: int, d: int)
    requires n > 0
    ensures d >= 1 ==> n * d >= n
    ensures d <= -1 ==> n * d <= -n
  {
  }

  /** Adding the modulus does not change a remainder. */
  lemma ModAddPeriod(a: int, n: int)
    requires n > 0
    ensures (a + n) % n == a % n
  {
    var d := (a / n + 1) - (a + n) / n;
    assert n * d == (a + n) % n - a % n;
    MulAtLeast(n, d);
  }

  /** During the first pass the tick number is the event index. */
  lemma EventAtFirstPass(events: seq<Event>, step: nat)
    requires step < |events|
    ensures EventAt(events, step) == Some(events[step])
  {
  }

  /** The player an event identity refers to, if the id is known and the
      name is one of the tracked players. */
  function Resolve(id: Option<int>, names: map<int, string>, locs: Locations): (r: Option<string>)
    ensures r.Some? <==> id.Some? && id.value in names && names[id.value] in locs
    ensures r.Some? ==> r.value in locs && r.value == names[id.value]
  {
    if id.Some? && id.value in names && names[id.value] in locs then Some(names[id.value]) else None
  }

  /** Locations after the event's own moves, with the players they moved. */
  datatype Partial = Partial(locations: Locations, moved: set<string>)

  datatype SubStep = Moved(partial: Partial) | Stopped(locations: Locations, fault: Fault)

  /** The pass recipient an event resolves to; only passes have one. */
  function RecipientOf(e: Event, names: map<int, string>, locs: Locations): (r: Option<string>)
    ensures r.Some? <==> IsPass(e) && Resolve(e.recipient, names, locs).Some?
    ensures r.Some? ==> r.value in locs && r.value == names[e.recipient.value]
  {
    if IsPass(e) then Resolve(e.recipient, names, locs) else None
  }

  function NameSet(o: Option<string>): set<string> {
    if o.Some? then {o.value} else {}
  }

  /** Moves `name` toward a provider location, smoothed. */
  function MoveToward(locs: Locations, name: string, dest: Point): (l: Locations)
    requires name in locs
    ensures l.Keys == locs.Keys
    ensures forall n :: n in locs && n != name ==> l[n] == locs[n]
    ensures Approaches(locs[name], l[name], Transform(dest))
  {
    locs[name := SmoothToward(locs[name], Transform(dest))]
  }

  /** The actor's move. An unresolved actor leaves the map as it is; a
      resolved actor without a location value stops the tick. */
  function ActorStep(e: Event, names: map<int, string>, locs: Locations): (r: SubStep)
    ensures r.Moved? ==> r.partial.locations.Keys == locs.Keys && r.partial.moved <= locs.Keys
    ensures r.Moved? ==> forall n :: n in locs && n !in r.partial.moved ==> r.partial.locations[n] == locs[n]
    ensures Resolve(e.actor, names, locs).None? ==> r == Moved(Partial(locs, {}))
    ensures r.Stopped? <==> Resolve(e.actor, names, locs).Some? && e.location.None?
    ensures r.Stopped? ==> r.locations == locs && r.fault == MissingLocation
    ensures r.Moved? && Resolve(e.actor, names, locs).Some? ==>
              var a := Resolve(e.actor, names, locs).value;
              && r.partial.moved == {a}
              && Approaches(locs[a], r.partial.locations[a], Transform(e.location.value))
  {
    match Resolve(e.actor, names, locs)
    case None => Moved(Partial(locs, {}))
    case Some(name) =>
      match e.location
      case None => Stopped(locs, MissingLocation)
      case Some(dest) => Moved(Partial(MoveToward(locs, name, dest), {name}))
  }

  /** The recipient's move, for passes only, from the map the actor's move
      left. */
  function RecipientStep(e: Event, names: map<int, string>, part: Partial): (r: SubStep)
    ensures r.Moved? ==> r.partial.locations.Keys == part.locations.Keys
    ensures r.Moved? ==> part.moved <= r.partial.moved
    ensures r.Moved? ==> r.partial.moved - part.moved <= part.locations.Keys
    ensures r.Moved? ==> |r.partial.moved| <= |part.moved| + 1
    ensures r.Moved? ==> forall n :: n in part.locations && n !in r.partial.moved
                                     ==> r.partial.locations[n] == part.locations[n]
    ensures !IsPass(e) || Resolve(e.recipient, names, part.locations).None? ==> r == Moved(part)
    ensures r.Stopped? <==> IsPass(e) && Resolve(e.recipient, names, part.locations).Some? && e.endLocation.None?
    ensures r.Stopped? ==> r.locations == part.locations && r.fault == MissingEndLocation
    ensures r.Moved? && IsPass(e) && Resolve(e.recipient, names, part.locations).Some? ==>
              var b := Resolve(e.recipient, names, part.locations).value;
              && r.partial.moved == part.moved + {b}
              && Approaches(part.locations[b], r.partial.locations[b], Transform(e.endLocation.value))
  {
    if !IsPass(e) then Moved(part)
    else match Resolve(e.recipient, names, part.locations)
      case None => Moved(part)
      case Some(name) =>
        match e.endLocation
        case None => Stopped(part.locations, MissingEndLocation)
        case Some(dest) => Moved(Partial(MoveToward(part.locations, name, dest), part.moved + {name}))
  }

  /** Both event moves: the actor's, then for a pass the recipient's. The
      players named by the event are exactly the ones moved, each closing
      30% of the distance to his destination; everyone else stays put. */
  function EventStep(e: Event, names: map<int, string>, locs: Locations): (r: SubStep)
    ensures r.Moved? ==> r.partial.locations.Keys == locs.Keys
    ensures r.Moved? ==> r.partial.moved == NameSet(Resolve(e.actor, names, locs)) + NameSet(RecipientOf(e, names, locs))
    ensures r.Moved? ==> forall n :: n in locs && n !in r.partial.moved ==> r.partial.locations[n] == locs[n]
    ensures r.Moved? && Resolve(e.actor, names, locs).Some? ==> e.location.Some?
    ensures r.Moved? && RecipientOf(e, names, locs).Some? ==> e.endLocation.Some?
    ensures r.Moved? ==>
              var a := Resolve(e.actor, names, locs);
              a.Some? && RecipientOf(e, names, locs) != a ==>
                Approaches(locs[a.value], r.partial.locations[a.value], Transform(e.location.value))
    ensures r.Moved? ==>
              var b := RecipientOf(e, names, locs);
              b.Some? && b != Resolve(e.actor, names, locs) ==>
                Approaches(locs[b.value], r.partial.locations[b.value], Transform(e.endLocation.value))
    ensures r.Stopped? <==> || (Resolve(e.actor, names, locs).Some? && e.location.None?)
                            || (RecipientOf(e, names, locs).Some? && e.endLocation.None?)
    ensures Resolve(e.actor, names, locs).Some? && e.location.None? ==> r == Stopped(locs, MissingLocation)
    ensures r.Stopped? && !(Resolve(e.actor, names, locs).Some? && e.location.None?) ==> r.fault == MissingEndLocation
    ensures r.Stopped? && r.fault == MissingEndLocation ==>
              ActorStep(e, names, locs).Moved? && r.locations == ActorStep(e, names, locs).partial.locations
  {
    match ActorStep(e, names, locs)
    case Stopped(l, f) => Stopped(l, f)
    case Moved(part) =>
      assert Resolve(e.recipient, names, part.locations) == Resolve(e.recipient, names, locs);
      RecipientStep(e, names, part)
  }

  /** `random.uniform(lo, hi)` from a draw u in [0, 1). */
  function Uniform(lo: real, hi: real, u: real): (r: real)
    ensures lo <= hi && 0.0 <= u < 1.0 ==> lo <= r <= hi
    ensures u == 0.0 ==> r == lo
  {
    var w := hi - lo;
    ScaleWithin(w, u);
    lo + w * u
  }

  lemma ScaleWithin(w: real, u: real)
    ensures 0.0 <= w && 0.0 <= u <= 1.0 ==> 0.0 <= w * u <= w
  {
  }

  lemma FractionBelowOne(a: real, b: real)
    requires 0.0 <= a < b
    ensures 0.0 <= a / b < 1.0
  {
  }

  /** A larger draw gives a strictly larger value on a non-empty range. */
  lemma UniformIncreasing(lo: real, hi: real, u1: real, u2: real)
    requires lo < hi && u1 < u2
    ensures Uniform(lo, hi, u1) < Uniform(lo, hi, u2)
  {
    var w := hi - lo;
    assert Uniform(lo, hi, u2) - Uniform(lo, hi, u1) == w * (u2 - u1);
    assert w * (u2 - u1) > 0.0;
  }

  /** Every value of [lo, hi) is produced by exactly the draw that lies the
      same fraction of the way through [0, 1). */
  lemma UniformReaches(lo: real, hi: real, v: real)
    requires lo < hi && lo <= v < hi
    ensures var u := (v - lo) / (hi - lo);
            0.0 <= u < 1.0 && Uniform(lo, hi, u) == v
  {
    FractionBelowOne(v - lo, hi - lo);
  }

  /** The random offset a player aims at: a large step with probability
      0.2 for outfield players, otherwise a drift, narrower for keepers. */
  function Offset(role: Role, j: Jitter): (d: Point)
    ensures ValidJitter(j) && role == GK ==> Abs(d.x) <= 0.2 && Abs(d.y) <= 0.2
    ensures ValidJitter(j) ==> Abs(d.x) <= 2.0 && Abs(d.y) <= 2.0
    ensures ValidJitter(j) && role != GK && j.p >= DynamicMoveProbability ==> Abs(d.x) <= 0.5 && Abs(d.y) <= 0.5
    ensures role != GK && j.p < DynamicMoveProbability ==> d == Point(Uniform(-2.0, 2.0, j.ux), Uniform(-2.0, 2.0, j.uy))
    ensures role != GK && j.p >= DynamicMoveProbability ==> d == Point(Uniform(-0.5, 0.5, j.ux), Uniform(-0.5, 0.5, j.uy))
    ensures role == GK ==> d == Point(Uniform(-0.2, 0.2, j.ux), Uniform(-0.2, 0.2, j.uy))
  {
    if role != GK && j.p < DynamicMoveProbability then
      Point(Uniform(-2.0, 2.0, j.ux), Uniform(-2.0, 2.0, j.uy))
    else if role == GK then
      Point(Uniform(-0.2, 0.2, j.ux), Uniform(-0.2, 0.2, j.uy))
    else
      Point(Uniform(-0.5, 0.5, j.ux), Uniform(-0.5, 0.5, j.uy))
  }

  /** The smoothed random step, before clamping. */
  function Drift(p: Point, role: Role, j: Jitter): (q: Point)
    ensures ValidJitter(j) ==> Abs(q.x - p.x) <= 0.6 && Abs(q.y - p.y) <= 0.6
    ensures ValidJitter(j) && role == GK ==> Abs(q.x - p.x) <= 0.06 && Abs(q.y - p.y) <= 0.06
    ensures var d := Offset(role, j); Approaches(p, q, Point(p.x + d.x, p.y + d.y))
  {
    var d := Offset(role, j);
    SmoothToward(p, Point(p.x + d.x, p.y + d.y))
  }

  /** Every player the event did not move drifts and is clamped to its
      rectangle; the event-moved players keep their positions unclamped. */
  function Jostle(locs: Locations, moved: set<string>, draws: map<string, Jitter>): (l: Locations)
    requires locs.Keys <= Roles.Keys && locs.Keys <= draws.Keys
    ensures l.Keys == locs.Keys
    ensures forall n :: n in locs && n in moved ==> l[n] == locs[n]
    ensures forall n :: n in locs && n !in moved ==> Inside(l[n], Bounds(n))
    ensures forall n :: n in locs && n !in moved ==> l[n] == Clamp(Drift(locs[n], Roles[n], draws[n]), Bounds(n))
  {
    map n | n in locs ::
      if n in moved then locs[n] else Clamp(Drift(locs[n], Roles[n], draws[n]), Bounds(n))
  }

  /** One tick: replay the event for `step`, then jostle everyone else. */
  function Advance(events: seq<Event>, names: map<int, string>, locs: Locations,
                   step: nat, draws: map<string, Jitter>): (r: Outcome)
    requires locs.Keys <= Roles.Keys && locs.Keys <= draws.Keys
    ensures r.locations.Keys == locs.Keys
    ensures r.Completed? ==> r.moved <= locs.Keys && |r.moved| <= 2
    ensures r.Completed? ==> forall n :: n in locs && n !in r.moved ==> Inside(r.locations[n], Bounds(n))
    ensures r.Completed? ==> forall n :: n in locs && n !in r.moved ==>
              r.locations[n] == Clamp(Drift(locs[n], Roles[n], draws[n]), Bounds(n))
    ensures r.Raised? && r.fault == EmptyEventLog <==> |events| == 0
    ensures r.Raised? && r.fault != MissingEndLocation ==> r.locations == locs
    ensures r.Completed? <==> |events| > 0 && EventStep(events[step % |events|], names, locs).Moved?
    ensures r.Raised? && |events| > 0 ==>
              var s := EventStep(events[step % |events|], names, locs);
              r.locations == s.locations && r.fault == s.fault
    ensures r.Completed? ==>
              var e := events[step % |events|];
              EventStep(e, names, locs).Moved? && r.moved == EventStep(e, names, locs).partial.moved
    ensures r.Completed? ==>
              var e := events[step % |events|];
              forall n :: n in r.moved ==> r.locations[n] == EventStep(e, names, locs).partial.locations[n]
  {
    match EventAt(events, step)
    case None => Raised(locs, EmptyEventLog)
    case Some(e) =>
      match EventStep(e, names, locs)
      case Stopped(l, f) => Raised(l, f)
      case Moved(done) => Completed(Jostle(done.locations, done.moved, draws), done.moved)
  }

  /** In a completed tick the event's players are exactly the moved ones;
      the actor closes 30% of his distance to the event location and the
      pass recipient 30% of his distance to the pass end location, neither
      clamped. */
  lemma EventPlayersApproach(events: seq<Event>, names: map<int, string>, locs: Locations,
                             step: nat, draws: map<string, Jitter>)
    requires locs.Keys <= Roles.Keys && locs.Keys <= draws.Keys
    requires Advance(events, names, locs, step, draws).Completed?
    ensures var r := Advance(events, names, locs, step, draws);
            var e := events[step % |events|];
            var a := Resolve(e.actor, names, locs);
            var b := RecipientOf(e, names, locs);
            && r.moved == NameSet(a) + NameSet(b)
            && (a.Some? && b != a ==> Approaches(locs[a.value], r.locations[a.value], Transform(e.location.value)))
            && (b.Some? && b != a ==> Approaches(locs[b.value], r.locations[b.value], Transform(e.endLocation.value)))
  {
  }

  /** A player the event did not move, and who started the tick inside his
      rectangle, ends it at most 0.6 away on each axis (0.06 for a keeper):
      the clamp never lengthens the smoothed random step. */
  lemma JostleStepBounded(locs: Locations, moved: set<string>, draws: map<string, Jitter>, n: string)
    requires locs.Keys <= Roles.Keys && locs.Keys <= draws.Keys
    requires n in locs && n !in moved && ValidJitter(draws[n]) && Inside(locs[n], Bounds(n))
    ensures var q := Jostle(locs, moved, draws)[n];
            var k := if Roles[n] == GK then 0.06 else 0.6;
            Abs(q.x - locs[n].x) <= k && Abs(q.y - locs[n].y) <= k
  {
    var b := Bounds(n);
    var d := Drift(locs[n], Roles[n], draws[n]);
    ClampNonExpansive(d.x, b.xMin, b.xMax, locs[n].x);
    ClampNonExpansive(d.y, b.yMin, b.yMax, locs[n].y);
  }

  /** The actor of a non-pass event with a location closes 30% of his
      distance to it and is not clamped; everyone else stays in bounds. */
  lemma ActorApproachesEvent(events: seq<Event>, names: map<int, string>, locs: Locations,
                             step: nat, draws: map<string, Jitter>)
    requires locs.Keys <= Roles.Keys && locs.Keys <= draws.Keys
    requires |events| > 0
    requires var e := events[step % |events|];
             !IsPass(e) && Resolve(e.actor, names, locs).Some? && e.location.Some?
    ensures var e := events[step % |events|];
            var a := names[e.actor.value];
            var dest := Transform(e.location.value);
            var r := Advance(events, names, locs, step, draws);
            && r.Completed? && r.moved == {a}
            && Abs(r.locations[a].x - dest.x) == 0.7 * Abs(locs[a].x - dest.x)
            && Abs(r.locations[a].y - dest.y) == 0.7 * Abs(locs[a].y - dest.y)
  {
  }

  /** When neither identity of the event resolves, the event moves nobody
      and every tracked player ends the tick inside his rectangle. */
  lemma UnresolvedEventOnlyJostles(events: seq<Event>, names: map<int, string>, locs: Locations,
                                   step: nat, draws: map<string, Jitter>)
    requires locs.Keys <= Roles.Keys && locs.Keys <= draws.Keys
    requires |events| > 0
    requires Resolve(events[step % |events|].actor, names, locs).None?
    requires Resolve(events[step % |events|].recipient, names, locs).None?
    ensures var r := Advance(events, names, locs, step, draws);
            && r.Completed? && r.moved == {}
            && forall n :: n in r.locations ==> Inside(r.locations[n], Bounds(n))
  {
  }

  /** Event moves are never clamped: a France forward, starting from his
      formation spot, who carries the ball toward the far goal line leaves
      his own half in one tick. */
  lemma EventMoveEscapesBounds()
    ensures
      var mbappe := "Kylian Mbappé";
      var e := Event("Carry", Some(10), None, Some(Point(120.0, 8.0)), None);
      var locs := map[mbappe := InitialLocations[mbappe]];
      var r := Advance([e], map[10 := mbappe], locs, 0, map[mbappe := Jitter(0.5, 0.5, 0.5)]);
      && r.Completed? && mbappe in r.moved
      && r.locations[mbappe].x == 73.5
      && !Inside(r.locations[mbappe], Bounds(mbappe))
  {
    var mbappe := "Kylian Mbappé";
    var e := Event("Carry", Some(10), None, Some(Point(120.0, 8.0)), None);
    var names := map[10 := mbappe];
    var locs := map[mbappe := InitialLocations[mbappe]];
    assert InitialLocations[mbappe] == Point(60.0, 8.0);
    assert Transform(Point(120.0, 8.0)) == Point(105.0, 6.8);
    assert Resolve(e.actor, names, locs) == Some(mbappe);
    var moved := Partial(locs[mbappe := Point(73.5, 8.0 + 0.3 * (6.8 - 8.0))], {mbappe});
    assert ActorStep(e, names, locs) == Moved(moved);
    assert RecipientStep(e, names, moved) == Moved(moved);
    assert Bounds(mbappe) == Rect(0.0, 52.5, 0.0, 68.0);
  }

  /** Locations after a sequence of ticks, each with its own step number and
      draws. A tick that stops early keeps the writes it made, and the next
      tick starts from them. */
  function Run(events: seq<Event>, names: map<int, string>, locs: Locations,
               steps: seq<nat>, draws: seq<map<string, Jitter>>): (l: Locations)
    requires |draws| == |steps|
    requires locs.Keys <= Roles.Keys
    requires forall i :: 0 <= i < |draws| ==> locs.Keys <= draws[i].Keys
    ensures l.Keys == locs.Keys
    decreases |steps|
  {
    if |steps| == 0 then locs
    else Run(events, names, Advance(events, names, locs, steps[0], draws[0]).locations,
             steps[1..], draws[1..])
  }
}

=== FILE: teamstats.dfy ===
/** Per-team aggregates computed once from the scored shots: each squad's
    optimal attacking point and its xG balance. The shot scorer itself is
    outside the model; every shot arrives with its xG value. */
module TeamStats {
  import opened Geometry
  import opened Roster

  /** A scored shot: the shooting team's name, its xG value and its
      location in provider coordinates. */
  datatype Shot = Shot(team: string, xg: real, location: Point)

  /** Shots worth more than this feed the optimal-point average. */
  const HighValueThreshold: real := 0.3

  function TeamName(s: Squad): string {
    match s
    case Argentina => "Argentina"
    case France => "France"
  }

  /** The point used when a squad has no high-value shot. */
  function Fallback(s: Squad): Point {
    match s
    case Argentina => Point(90.0, 34.0)
    case France => Point(10.0, 34.0)
  }

  predicate IsHigh(s: Shot, squad: Squad) {
    s.team == TeamName(squad) && s.xg > HighValueThreshold
  }

  /** The squad's high-value shots, in log order. */
  function HighShots(shots: seq<Shot>, squad: Squad): (h: seq<Shot>)
    ensures |h| <= |shots|
    ensures forall i :: 0 <= i < |h| ==> h[i] in shots && IsHigh(h[i], squad)
    ensures forall s :: s in shots && IsHigh(s, squad) ==> s in h
  {
    if |shots| == 0 then []
    else if IsHigh(shots[0], squad) then [shots[0]] + HighShots(shots[1..], squad)
    else HighShots(shots[1..], squad)
  }

  /** Logging one more shot adds it to the squad's high-value shots exactly
      when it is one, keeping duplicates and order. */
  lemma {:induction false} HighShotsAppend(shots: seq<Shot>, s: Shot, squad: Squad)
    ensures HighShots(shots + [s], squad)
         == HighShots(shots, squad) + (if IsHigh(s, squad) then [s] else [])
  {
    if |shots| > 0 {
      assert (shots + [s])[1..] == shots[1..] + [s];
      HighShotsAppend(shots[1..], s, squad);
    } else {
      assert shots + [s] == [s];
    }
  }

  function Sum(v: seq<real>): real {
    if |v| == 0 then 0.0 else v[0] + Sum(v[1..])
  }

  /** Arithmetic mean of a non-empty sequence. */
  function Mean(v: seq<real>): real
    requires |v| > 0
  {
    Sum(v) / |v| as real
  }

  lemma {:induction false} SumWithin(v: seq<real>, lo: real, hi: real)
    requires forall i :: 0 <= i < |v| ==> lo <= v[i] <= hi
    ensures |v| as real * lo <= Sum(v) <= |v| as real * hi
  {
    if |v| > 0 {
      SumWithin(v[1..], lo, hi);
    }
  }

  /** A mean lies between any lower and upper bound of its elements. */
  lemma MeanWithin(v: seq<real>, lo: real, hi: real)
    requires |v| > 0
    requires forall i :: 0 <= i < |v| ==> lo <= v[i] <= hi
    ensures lo <= Mean(v) <= hi
  {
    SumWithin(v, lo, hi);
    var n := |v| as real;
    assert Sum(v) / n >= lo by {
      assert Sum(v) >= n * lo;
    }
    assert Sum(v) / n <= hi by {
      assert Sum(v) <= n * hi;
    }
  }

  /** Each element's deviation from c. */
  function Deviations(v: seq<real>, c: real): (d: seq<real>)
    ensures |d| == |v|
    ensures forall i :: 0 <= i < |v| ==> d[i] == v[i] - c
  {
    seq(|v|, i requires 0 <= i < |v| => v[i] - c)
  }

  lemma {:induction false} SumDeviations(v: seq<real>, c: real)
    ensures Sum(Deviations(v, c)) == Sum(v) - |v| as real * c
  {
    if |v| > 0 {
      assert Deviations(v, c)[1..] == Deviations(v[1..], c);
      SumDeviations(v[1..], c);
    }
  }

  /** The mean is the one value the deviations balance around: they sum to
      zero about it and about no other value. */
  lemma MeanBalances(v: seq<real>, c: real)
    requires |v| > 0
    ensures Sum(Deviations(v, c)) == 0.0 <==> c == Mean(v)
  {
    SumDeviations(v, c);
    var n := |v| as real;
    assert n * (Sum(v) / n) == Sum(v);
  }

  function PitchXs(h: seq<Shot>): (xs: seq<real>)
    ensures |xs| == |h|
    ensures forall i :: 0 <= i < |h| ==> xs[i] == Transform(h[i].location).x
  {
    seq(|h|, i requires 0 <= i < |h| => Transform(h[i].location).x)
  }

  function PitchYs(h: seq<Shot>): (ys: seq<real>)
    ensures |ys| == |h|
    ensures forall i :: 0 <= i < |h| ==> ys[i] == Transform(h[i].location).y
  {
    seq(|h|, i requires 0 <= i < |h| => Transform(h[i].location).y)
  }

  /** The mean pitch location of the squad's high-value shots, or the
      squad's fallback point when it has none. */
  function OptimalPoint(shots: seq<Shot>, squad: Squad): (p: Point)
    ensures HighShots(shots, squad) == [] ==> p == Fallback(squad)
    ensures HighShots(shots, squad) != [] ==>
              && Sum(Deviations(PitchXs(HighShots(shots, squad)), p.x)) == 0.0
              && Sum(Deviations(PitchYs(HighShots(shots, squad)), p.y)) == 0.0
  {
    var h := HighShots(shots, squad);
    if |h| == 0 then Fallback(squad)
    else
      var p := Point(Mean(PitchXs(h)), Mean(PitchYs(h)));
      MeanBalances(PitchXs(h), p.x);
      MeanBalances(PitchYs(h), p.y);
      p
  }

  /** When there are high-value shots, the optimal point is the only point
      their pitch locations balance around on both axes: their mean. */
  lemma OptimalPointIsMean(shots: seq<Shot>, squad: Squad, c: Point)
    requires HighShots(shots, squad) != []
    ensures (&& Sum(Deviations(PitchXs(HighShots(shots, squad)), c.x)) == 0.0
             && Sum(Deviations(PitchYs(HighShots(shots, squad)), c.y)) == 0.0)
            <==> c == OptimalPoint(shots, squad)
  {
    var h := HighShots(shots, squad);
    MeanBalances(PitchXs(h), c.x);
    MeanBalances(PitchYs(h), c.y);
  }

  /** The optimal point lies in every rectangle that holds all of the
      squad's high-value shots; shots on the provider pitch therefore give
      a point on the dashboard pitch. */
  lemma OptimalPointWithinShots(shots: seq<Shot>, squad: Squad, r: Rect)
    requires HighShots(shots, squad) != []
    requires forall s :: s in HighShots(shots, squad) ==> Inside(Transform(s.location), r)
    ensures Inside(OptimalPoint(shots, squad), r)
  {
    var h := HighShots(shots, squad);
    MeanWithin(PitchXs(h), r.xMin, r.xMax);
    MeanWithin(PitchYs(h), r.yMin, r.yMax);
  }

  lemma OptimalPointOnPitch(shots: seq<Shot>, squad: Squad)
    requires forall s :: s in shots ==> OnProviderPitch(s.location)
    ensures OnPitch(OptimalPoint(shots, squad))
  {
    var h := HighShots(shots, squad);
    if h != [] {
      OptimalPointWithinShots(shots, squad, Rect(0.0, PitchLength, 0.0, PitchWidth));
    }
  }

  /** Total xG of the shots a team took. */
  function TeamXg(shots: seq<Shot>, team: string): (t: real)
    ensures (forall i :: 0 <= i < |shots| ==> shots[i].xg >= 0.0) ==> t >= 0.0
    ensures (forall i :: 0 <= i < |shots| ==> shots[i].team != team) ==> t == 0.0
  {
    if |shots| == 0 then 0.0
    else (if shots[0].team == team then shots[0].xg else 0.0) + TeamXg(shots[1..], team)
  }

  /** Appending a shot to the log adds its xG to its own team's total only. */
  lemma {:induction false} TeamXgAppend(shots: seq<Shot>, s: Shot, team: string)
    ensures TeamXg(shots + [s], team) == TeamXg(shots, team) + (if s.team == team then s.xg else 0.0)
  {
    if |shots| > 0 {
      assert (shots + [s])[1..] == shots[1..] + [s];
      TeamXgAppend(shots[1..], s, team);
    }
  }

  /** Attack xG minus defence xG, the defence xG being the opponent's attack. */
  function Balance(shots: seq<Shot>, squad: Squad): (b: real)
    ensures (forall i :: 0 <= i < |shots| ==> shots[i].team != TeamName(Opponent(squad)) && shots[i].xg >= 0.0)
            ==> b >= 0.0
    ensures (forall i :: 0 <= i < |shots| ==> shots[i].team != TeamName(squad) && shots[i].xg >= 0.0)
            ==> b <= 0.0
  {
    TeamXg(shots, TeamName(squad)) - TeamXg(shots, TeamName(Opponent(squad)))
  }

  /** Logging one more shot raises its own squad's balance by its xG,
      lowers the opponent's by the same, and leaves balances unchanged for
      a shot by neither squad. */
  lemma BalanceAppend(shots: seq<Shot>, s: Shot, squad: Squad)
    ensures Balance(shots + [s], squad)
         == Balance(shots, squad)
            + (if s.team == TeamName(squad) then s.xg
               else if s.team == TeamName(Opponent(squad)) then -s.xg
               else 0.0)
  {
    TeamXgAppend(shots, s, TeamName(squad));
    TeamXgAppend(shots, s, TeamName(Opponent(squad)));
  }

  /** The two balances cancel, so at most one squad counts as leading. */
  lemma BalanceAntisymmetric(shots: seq<Shot>, squad: Squad)
    ensures Balance(shots, squad) == -Balance(shots, Opponent(squad))
    ensures !(Balance(shots, squad) > 0.5 && Balance(shots, Opponent(squad)) > 0.5)
  {
  }

  /** The static aggregates the advice engine reads. */
  datatype TeamData = TeamData(argOptimal: Point, fraOptimal: Point, argBalance: real, fraBalance: real)

  function OptimalOf(t: TeamData, squad: Squad): Point {
    match squad
    case Argentina => t.argOptimal
    case France => t.fraOptimal
  }

  function BalanceOf(t: TeamData, squad: Squad): real {
    match squad
    case Argentina => t.argBalance
    case France => t.fraBalance
  }

  function Aggregate(shots: seq<Shot>): (t: TeamData)
    ensures t.argBalance == -t.fraBalance
    ensures t.argBalance == Balance(shots, Argentina) && t.fraBalance == Balance(shots, France)
    ensures t.argOptimal == OptimalPoint(shots, Argentina) && t.fraOptimal == OptimalPoint(shots, France)
    ensures |shots| == 0 ==> t == TeamData(Fallback(Argentina), Fallback(France), 0.0, 0.0)
  {
    TeamData(OptimalPoint(shots, Argentina), OptimalPoint(shots, France),
             Balance(shots, Argentina), Balance(shots, France))
  }

  /** The aggregate balances follow the formula shot by shot: an Argentina
      shot moves Argentina's balance up by its xG, a France shot moves it
      down, and France's balance moves the opposite way. */
  lemma AggregateAppend(shots: seq<Shot>, s: Shot)
    ensures Aggregate(shots + [s]).argBalance
         == Aggregate(shots).argBalance
            + (if s.team == "Argentina" then s.xg else if s.team == "France" then -s.xg else 0.0)
    ensures Aggregate(shots + [s]).fraBalance == -Aggregate(shots + [s]).argBalance
  {
    BalanceAppend(shots, s, Argentina);
  }
}

=== FILE: wrappers.dfy ===
/** Two plain sum types shared by the model: an optional value, and a
    result that is either a value or an error. */
module Wrappers {

  datatype Option<+T> = None | Some(value: T)

  datatype Result<+T, +E> = Success(value: T) | Failure(error: E)
}
